=== FILE: README.md ===
# pypbars: multi-line progress bars routed by worker identity

This project models the core of `pypbars`, the `ProgressBars` class. It is a
terminal display that keeps one progress bar per entry of a caller-supplied
`lookup` list. Every status message it is given is routed to the bar the
message names, and the bar's row is repainted when that bar changes.

It models the three parts of the class:

- **Construction.** The nested `validate` rejects a truthy `data` or `size`
  keyword argument and a missing `lookup`. The constructor then derives `size`
  from `len(lookup)` and builds the `data` list in a loop: one fresh bar per
  lookup entry, every bar sharing the same pattern table and `fill`, and every
  bar in `control` mode.
- **The default pattern table.** Three anchored patterns classify a payload:
  `total`, `count` and `alias`. They are modelled as literal prefix/suffix
  templates with a capture class (`\d+` or `.*`). The matcher follows Python's
  `re` semantics: `.` does not match a newline, and `$` matches at the end of
  the text or just before a final newline.
- **`write`.** The item is resolved to an optional `(index, message)`. Only bar
  `index` is asked to `match`. Its row is repainted once when the match
  succeeds and once more when the bar is complete. The item is then logged when
  `log_write` is on.

Files and modules:

- `patterns.dfy` (module `Patterns`): templates, `Capture`, the default table,
  its exact characterisation, mutual exclusion of the three default patterns,
  and the decimal round trip for the `total` capture.
- `bar.dfy` (module `Bar`): one progress bar. Its state is `BarState`, `Step`
  is the effect of `match`, and `ProgressBar` is the class whose `Match` method
  is proved against `Step`.
- `router.dfy` (module `Router`): `IndexMessage`, the meaning given to the
  inherited `get_index_message`. It uses the `<identity>-><payload>` convention
  the callers follow, and the first `->` splits the item.
- `pypbars.dfy` (module `PyPBars`): `Validate`, `Create`, and the `ProgressBars`
  class with its constructor loop and `Write`. `Write` is proved against the
  pure `WriteEffect`. Lemmas about `WriteEffect` and runs of writes (`WriteAll`)
  state the isolation and repaint properties.

The display's output is recorded, not performed. Each `print_line(i)` appends
row `i` to the `repainted` trace. Each `logger.debug(item)` appends `item` to
the `logged` trace.

Where the unit tests and the code disagree, the model follows the code:

- `src/unittest/python/test_pypbars.py:85-92` expects no repaint when a cached
  rendering of the row is unchanged. `write` has no such cache and repaints on
  every successful match.
- `src/unittest/python/test_pypbars.py:36` expects `use_color` to be passed to
  each bar. The constructor passes `fill`.

Where a reader might expect behaviour that the code does not have, the model
follows the code:

- An empty `lookup` is accepted, and a `lookup` with duplicate entries is not
  rejected.
- A bar that is complete has its row repainted on every write routed to it,
  not only when it first completes (`CompleteBarRepaintedOnEveryWrite`).
- Reset messages are not handled by `write`. A caller handles them before
  calling it, and `write` treats `reset` as an ordinary payload.

## Model

| member | source | states |
|---|---|---|
| `Patterns.Capture` | src/main/python/pypbars/pypbars.py:11-15 | Any capture returned makes the anchored pattern match the whole payload, with `$` at the end or before one final newline |
| `Patterns.CaptureComplete` | src/main/python/pypbars/pypbars.py:11-15 | Whenever some capture makes the pattern match, the matcher reports a match |
| `Patterns.CaptureIff` | src/main/python/pypbars/pypbars.py:11-15 | For patterns with newline-free literal parts, the matcher returns exactly the capture that makes the pattern match, in both directions |
| `Patterns.TotalPatternExact` | src/main/python/pypbars/pypbars.py:12 | `total` matches exactly `processing total of <one or more digits> items`, optionally followed by a final newline, and captures the digits |
| `Patterns.CountPatternExact` | src/main/python/pypbars/pypbars.py:13 | `count` matches exactly the payloads that start with `processed ` and have no newline after it, apart from one optional final newline |
| `Patterns.AliasPatternExact` | src/main/python/pypbars/pypbars.py:14 | `alias` matches `worker is <rest>` and captures the rest, without the final newline that `$` allows |
| `Patterns.DefaultPatternsExclusive` | src/main/python/pypbars/pypbars.py:11-15 | No payload is matched by two of the three default patterns |
| `Patterns.DecimalString` | examples/example3.py:21 | The decimal rendering of a count is a non-empty digit string with no leading zero |
| `Patterns.DecimalRoundTrip` | examples/example3.py:21 | Reading back the decimal rendering of `n` gives `n` |
| `Patterns.TotalMessageRoundTrip` | examples/example3.py:21 | The `total` pattern recovers exactly the number a worker announces in `processing total of {total} items` |
| `Bar.StepProperties` | src/main/python/pypbars/pypbars.py:53-57 | `match` returns true iff some pattern of the bar's table accepts the payload; an unmatched payload leaves the bar unchanged; the count grows by at most one; a complete bar stays complete, and a bar only becomes complete with a known total that the count has reached |
| `Bar.DefaultTotalStep` | src/main/python/pypbars/pypbars.py:12 | With the default table, `processing total of <n> items` matches, sets the total to `n` and changes nothing else |
| `Bar.DefaultCountStep` | src/main/python/pypbars/pypbars.py:13 | With the default table, a `processed ...` payload matches, adds exactly one item, keeps alias and total, and completes the bar iff the total is known and now reached |
| `Bar.DefaultAliasStep` | src/main/python/pypbars/pypbars.py:14 | With the default table, `worker is <v>` matches, sets the alias to `v` and changes nothing else |
| `Bar.ProgressBar.constructor` | src/main/python/pypbars/pypbars.py:39 | A new bar keeps the table, `fill` and `control` it is built with and starts empty and not complete |
| `Bar.ProgressBar.Match` | src/main/python/pypbars/pypbars.py:53 | The bar's new state and the returned flag are those of `Bar.Step` (the assumed effect of the bar's `match`) on its table, old state and payload |
| `Router.IndexMessage` | src/main/python/pypbars/pypbars.py:51 | A resolved index is always below `len(lookup)`, so `self[index]` never fails |
| `Router.RouteSound` | src/main/python/pypbars/pypbars.py:51 | A routed item is exactly `<lookup entry>-><message>`, and the entry holds no delimiter |
| `Router.RouteKnownIdentity` | examples/example3.py:20-25 | `<id>-><m>` with `id` in `lookup` reaches the first bar with that identity and carries exactly `m`, even when `m` itself contains `->` |
| `Router.RouteUnknownIdentity` | src/main/python/pypbars/pypbars.py:51-52 | An item whose identity is not in `lookup` resolves to no index |
| `Router.RouteNoDelimiter` | src/main/python/pypbars/pypbars.py:51-52 | An item without `->` resolves to no index |
| `PyPBars.Validate` | src/main/python/pypbars/pypbars.py:20-30 | A truthy `data` raises "specifying data is not supported" first, then a truthy `size` raises "specifying size is not supported", then a missing or None `lookup` raises "a lookup attribute is required"; construction proceeds iff none applies |
| `PyPBars.EmptyLookupAccepted` | src/main/python/pypbars/pypbars.py:29-30 | An empty `lookup`, an empty `data` list and `size=0` are all accepted |
| `PyPBars.Create` | src/main/python/pypbars/pypbars.py:17-42 | Fails with exactly the error `validate` raises; otherwise returns a fresh display with `size == len(lookup)`, one fresh bar per entry, all built with `PyPBars.ChosenTable` of `regex` (the caller's table, or the class default when `regex` is falsy, lines 34-35) and with `fill`, and `log_write` kept; `regex` and `fill` default to None and `log_write` to true, as in the signature at line 17 |
| `PyPBars.CreateWithLookup` | src/main/python/pypbars/pypbars.py:17-42 | `ProgressBars(lookup=lookup)`, with every default, never fails: it builds `len(lookup)` bars with the class default table and no fill, starts in the initial display, and logs every written item (`log_write` is true) |
| `PyPBars.Consume` | src/main/python/pypbars/multiprocessing.py:30-33 | A display built with `ProgressBars(lookup=lookup)` that receives every queued item through `write`, in order, ends exactly in `WriteAll` of the initial display over those items, so the run lemmas (`WriteAllIsolation`, `WorkerLifecycle`) describe it |
| `PyPBars.ProgressBars.constructor` | src/main/python/pypbars/pypbars.py:36-41 | `size == len(lookup)`; the `data` list holds `len(lookup)` distinct fresh bars, all with the same table and `fill` and in control mode, all in the initial state; nothing repainted or logged yet |
| `PyPBars.ProgressBars.PrintLine` | src/main/python/pypbars/pypbars.py:54 | Repainting row `i` appends `i` to the repaint trace |
| `PyPBars.ProgressBars.Write` | src/main/python/pypbars/pypbars.py:44-59 | The display after `write(item)` is `PyPBars.WriteEffect` of the display before: only the routed bar is passed to `match`, its row is repainted once on a match and once more if the bar is then complete, and the item is logged iff `log_write` is on |
| `PyPBars.WriteTouchesOnlyTarget` | src/main/python/pypbars/pypbars.py:51-59 | One write changes no bar other than the routed one and repaints only that bar's row, 0, 1 or 2 times; an item routed nowhere changes no bar and repaints nothing; the item is logged iff logging is on |
| `PyPBars.CompleteBarRepaintedOnEveryWrite` | src/main/python/pypbars/pypbars.py:55-57 | Every write routed to a complete bar repaints that bar's row, even when nothing matched, and the bar stays complete |
| `PyPBars.WriteAllIsolation` | src/main/python/pypbars/pypbars.py:44-59 | Over any run of writes, a bar that no item is routed to keeps its state and its row is never repainted; with logging on, the run's items are logged in order |
| `PyPBars.WriteAllFollowsTrace` | src/main/python/pypbars/pypbars.py:44-59 | A run of writes whose single steps go through a sequence of displays ends in the last one |
| `PyPBars.UnknownIdentityDropped` | src/main/python/pypbars/pypbars.py:51-52 | A message for an identity not in `lookup` changes no bar and repaints nothing; only the log records it |
| `PyPBars.KnownIdentityWrite` | src/main/python/pypbars/pypbars.py:51-57 | A message `<id>-><m>` for a known identity updates the first bar with that identity exactly as its `match` does and repaints as the rule says |
| `PyPBars.AliasWrite` | src/main/python/pypbars/pypbars.py:53-57 | With the default table, `<id>->worker is <v>` sets that bar's alias and repaints its row once, or twice if it is complete |
| `PyPBars.TotalWrite` | src/main/python/pypbars/pypbars.py:53-57 | With the default table, `<id>->processing total of <n> items` sets that bar's total to `n` and repaints its row once, or twice if it is complete |
| `PyPBars.CountWrite` | src/main/python/pypbars/pypbars.py:53-57 | With the default table, `<id>->processed ...` counts one item on that bar and repaints its row once, and once more if the bar is then complete |
| `PyPBars.WorkerLifecycle` | examples/example3.py:19-26 | A worker that names itself, announces three items and reports each of them leaves its bar with that alias, total 3, count 3 and complete; every other bar keeps its initial state; its row is repainted six times (five matches plus one on completion) |

## Left out

- The parent class `Lines` (l2term) is not part of this model. `get_index_message` is given the meaning of the `<identity>-><payload>` convention (module `Router`, first `->` splits, first matching lookup entry wins). `print_line` is a trace of repainted rows. Terminal output, cursor movement, `__getitem__` beyond indexing the bar list, and the context manager's cursor hide/show are not modelled.
- The bar class (progress1bar's `ProgressBar`) is not part of this model. Its code is not available, so `Bar.Step` is an assumed behaviour of its `match` method. The assumptions are: every category is tried; an `alias` match overwrites the alias; a `count` match adds one; the bar completes once counted items reach a known total and then stays complete. With the default table the three patterns are mutually exclusive, so the order in which categories are tried makes no difference there. Rendering, `fill`/colour display, durations and the bar's `reset` are not modelled.
- A custom `total` pattern whose capture `int()` cannot read would raise inside the bar; here a `total` capture is always a digit string, so that failure cannot arise.
- Patterns.Capture: `\d` is modelled as the ASCII digits `0`-`9`; Python's `\d` also matches other Unicode decimal digits.
- The `regex` argument is modelled as a table of three anchored prefix/suffix patterns, or none. Arbitrary Python regular expressions and dictionaries that lack a category are not modelled. An empty dictionary behaves like None (both are falsy) and is represented by None.
- PyPBars.Validate: `data` and `size` are modelled by their truthiness only (`data` as an optional list, `size` as an optional integer, where negative sizes are truthy too). `lookup` is an optional list of strings; other sized objects are not modelled.
- Keyword arguments other than `data`, `size` and `lookup` (`show_prefix`, `show_fraction`, `show_duration`, `use_color`, `clear_alias`, ...) are passed through to the parent class and are not modelled.
- `logger.debug`, including the constructor's debug message, is modelled only as the trace of items `write` logs. Logging configuration is not modelled.
- The mirror-based change detection that the unit tests expect is not present in `write` and is not modelled as behaviour.
- `src/main/python/pypbars/multiprocessing.py` and the `examples/` scripts are not modelled beyond the consumer's write loop (`PyPBars.Consume`, which sees the queue as the sequence of items in the order they were dequeued): they are process pools, queues with timeouts, asyncio orchestration, random data and timing. Only their message format is used, in `Router.RouteKnownIdentity`, `Patterns.DecimalString`, `Patterns.DecimalRoundTrip`, `Patterns.TotalMessageRoundTrip`, `PyPBars.AliasWrite`, `PyPBars.TotalWrite`, `PyPBars.CountWrite` and `PyPBars.WorkerLifecycle`.
- Concurrency is not modelled: producers only enqueue text, and `write` runs on the single consumer.

=== FILE: bar.dfy ===
/** One progress bar: the tracker that ProgressBars keeps per lookup entry.

    The bar's own implementation (progress1bar's ProgressBar) is not part of
    this model. What ProgressBars relies on is that a bar has a `match` method
    that returns whether the payload matched, and a `complete` flag. The state
    update below is an assumed behaviour of that `match`: every pattern category
    is tried, `alias` stores the captured text, `total` stores the captured
    number, `count` adds one item, and the bar becomes complete (and stays so)
    once a counted item brings the count up to a known total.
 */
module Bar {
  import opened Patterns

  datatype BarState = BarState(alias: Option<string>, total: Option<nat>, count: nat, complete: bool)

  /** A freshly built bar: no alias, no total, nothing counted, not complete. */
  const Initial: BarState := BarState(None, None, 0, false)

  /** The effect of `match(payload)` on a bar configured with `table`:
      the new state, and whether any pattern matched. */
  function Step(table: PatternTable, st: BarState, payload: string): (r: (BarState, bool))
  {
    var alias := Capture(table.alias, Line, payload);
    var total := Capture(table.total, Digits, payload);
    var count := Capture(table.count, Line, payload);
    var newAlias := if alias.Some? then alias else st.alias;
    var newTotal := if total.Some? then Some(DecimalValue(total.value)) else st.total;
    var newCount := if count.Some? then st.count + 1 else st.count;
    var newComplete := st.complete || (count.Some? && newTotal.Some? && newCount >= newTotal.value);
    (BarState(newAlias, newTotal, newCount, newComplete), alias.Some? || total.Some? || count.Some?)
  }

  /** `match` reports a match exactly when some pattern accepts the payload; a
      payload no pattern accepts leaves the bar as it was; the count grows by
      at most one and a complete bar stays complete. */
  lemma StepProperties(table: PatternTable, st: BarState, payload: string)
    ensures var (next, matched) := Step(table, st, payload);
      (matched <==> Capture(table.alias, Line, payload).Some?
                    || Capture(table.total, Digits, payload).Some?
                    || Capture(table.count, Line, payload).Some?) &&
      (!matched ==> next == st) &&
      (next.count == st.count || next.count == st.count + 1) &&
      (st.complete ==> next.complete) &&
      (next.complete && !st.complete ==> next.total.Some? && next.count >= next.total.value)
  {
  }

  /** With the default table, `processed ...` adds exactly one item and
      touches neither the alias nor the total. */
  lemma DefaultCountStep(st: BarState, payload: string)
    requires Capture(DefaultTable.count, Line, payload).Some?
    ensures Step(DefaultTable, st, payload).1
    ensures var next := Step(DefaultTable, st, payload).0;
      next.count == st.count + 1 && next.alias == st.alias && next.total == st.total &&
      next.complete == (st.complete || (st.total.Some? && st.count + 1 >= st.total.value))
  {
    DefaultPatternsExclusive(payload);
  }

  /** With the default table, `processing total of <n> items` sets the total to
      exactly n and changes nothing else. */
  lemma DefaultTotalStep(st: BarState, n: nat)
    ensures Step(DefaultTable, st, TotalMessage(n)) == (st.(total := Some(n)), true)
  {
    TotalMessageRoundTrip(n);
    DefaultPatternsExclusive(TotalMessage(n));
  }

  /** With the default table, `worker is <v>` sets the alias to v and changes
      nothing else. */
  lemma DefaultAliasStep(st: BarState, v: string)
    requires NewlineFree(v)
    ensures Step(DefaultTable, st, AliasPrefix + v) == (st.(alias := Some(v)), true)
  {
    AliasPatternExact(AliasPrefix + v, v);
    DefaultPatternsExclusive(AliasPrefix + v);
  }

  class ProgressBar {
    const regex: PatternTable
    const fill: Option<string>
    /** Set by ProgressBars: the bar does not print itself, its owner repaints it. */
    const control: bool
    var alias: Option<string>
    var total: Option<nat>
    var count: nat
    var complete: bool

    function State(): (st: BarState)
      reads this
    {
      BarState(alias, total, count, complete)
    }

    constructor (regex: PatternTable, fill: Option<string>, control: bool)
      ensures this.regex == regex && this.fill == fill && this.control == control
      ensures State() == Initial
    {
      this.regex := regex;
      this.fill := fill;
      this.control := control;
      alias, total, count, complete := None, None, 0, false;
    }

    method Match(payload: string) returns (matched: bool)
      modifies this
      ensures (State(), matched) == Step(regex, old(State()), payload)
    {
      var a := Capture(regex.alias, Line, payload);
      var t := Capture(regex.total, Digits, payload);
      var c := Capture(regex.count, Line, payload);
      if a.Some? {
        alias := a;
      }
      if t.Some? {
        total := Some(DecimalValue(t.value));
      }
      if c.Some? {
        count := count + 1;
        if total.Some? && count >= total.value {
          complete := true;
        }
      }
      matched := a.Some? || t.Some? || c.Some?;
    }
  }
}

=== FILE: patterns.dfy ===
/** The pattern table that classifies the payload of a status message.

    Each entry of the table is an anchored pattern `^<prefix>(<capture>)<suffix>$`
    whose prefix and suffix are literal text. The capture class is fixed per
    category: `total` captures `\d+`, `count` and `alias` capture `.*`.
    Matching follows Python's `re` module: `.` does not match a newline, and `$`
    (without MULTILINE) matches at the end of the text or just before a newline
    that ends the text.
 */
module Patterns {

  datatype Option<+T> = None | Some(value: T)

  /** What the capture group of a pattern accepts: `\d+` or `.*`. */
  datatype CaptureClass = Digits | Line

  /** An anchored pattern `^prefix(capture)suffix$` with literal prefix and suffix. */
  datatype Template = Template(prefix: string, suffix: string)

  /** The three named patterns a progress bar is configured with. */
  datatype PatternTable = PatternTable(total: Template, count: Template, alias: Template)

  const TotalPrefix: string := "processing total of "
  const TotalSuffix: string := " items"
  const CountPrefix: string := "processed "
  const AliasPrefix: string := "worker is "

  /** The class-level default table:
        total  `^processing total of (?P<value>\d+) items$`
        count  `^processed .*$`
        alias  `^worker is (?P<value>.*)$`  */
  const DefaultTable: PatternTable := PatternTable(
    Template(TotalPrefix, TotalSuffix),
    Template(CountPrefix, ""),
    Template(AliasPrefix, ""))

  predicate IsDigit(c: char) {
    '0' <= c <= '9'
  }

  predicate NewlineFree(s: string) {
    forall i :: 0 <= i < |s| ==> s[i] != '\n'
  }

  predicate InClass(cls: CaptureClass, t: string) {
    match cls
    case Digits => |t| > 0 && forall i :: 0 <= i < |t| ==> IsDigit(t[i])
    case Line => NewlineFree(t)
  }

  /** `t` is a capture with which pattern `p` matches the whole of `s`,
      the `$` anchor standing either at the end or before a final newline. */
  ghost predicate Matches(p: Template, cls: CaptureClass, s: string, t: string) {
    InClass(cls, t) &&
    (s == p.prefix + t + p.suffix || s == p.prefix + t + p.suffix + "\n")
  }

  /** Matches `body` against prefix + capture + suffix with nothing left over. */
  function MatchExact(p: Template, cls: CaptureClass, body: string): (r: Option<string>)
  {
    if |p.prefix| + |p.suffix| <= |body| && p.prefix <= body
       && body[|body| - |p.suffix|..] == p.suffix
       && InClass(cls, body[|p.prefix|..|body| - |p.suffix|])
    then Some(body[|p.prefix|..|body| - |p.suffix|])
    else None
  }

  lemma MatchExactIff(p: Template, cls: CaptureClass, body: string, t: string)
    ensures MatchExact(p, cls, body) == Some(t) <==> InClass(cls, t) && body == p.prefix + t + p.suffix
  {
    var a, b := |p.prefix|, |body| - |p.suffix|;
    if MatchExact(p, cls, body) == Some(t) {
      assert body == body[..a] + body[a..b] + body[b..];
    }
    if InClass(cls, t) && body == p.prefix + t + p.suffix {
      assert body[..a] == p.prefix;
      assert body[a..b] == t;
      assert body[b..] == p.suffix;
    }
  }

  /** The capture of pattern `p` on `s`, or None when `p` does not match.
      The greedy capture is tried first with `$` at the very end of `s`,
      then with `$` before a final newline. */
  function Capture(p: Template, cls: CaptureClass, s: string): (r: Option<string>)
    ensures r.Some? ==> Matches(p, cls, s, r.value)
  {
    var whole := MatchExact(p, cls, s);
    if whole.Some? then
      MatchExactIff(p, cls, s, whole.value);
      whole
    else if |s| > 0 && s[|s| - 1] == '\n' then
      var shorter := MatchExact(p, cls, s[..|s| - 1]);
      if shorter.Some? then
        MatchExactIff(p, cls, s[..|s| - 1], shorter.value);
        assert s == s[..|s| - 1] + "\n";
        shorter
      else None
    else None
  }

  /** Whenever some capture makes `p` match, Capture finds one. */
  lemma CaptureComplete(p: Template, cls: CaptureClass, s: string, t: string)
    requires Matches(p, cls, s, t)
    ensures Capture(p, cls, s).Some?
  {
    if s == p.prefix + t + p.suffix {
      MatchExactIff(p, cls, s, t);
    } else if MatchExact(p, cls, s).None? {
      var body := p.prefix + t + p.suffix;
      assert s == body + "\n";
      assert s[..|s| - 1] == body;
      MatchExactIff(p, cls, body, t);
    }
  }

  /** The last character of a match of `p` without the final-newline
      allowance is never a newline, when prefix and suffix hold none. */
  lemma ExactMatchEndsWithoutNewline(p: Template, cls: CaptureClass, t: string)
    requires NewlineFree(p.prefix) && NewlineFree(p.suffix) && InClass(cls, t)
    requires |p.prefix + t + p.suffix| > 0
    ensures (p.prefix + t + p.suffix)[|p.prefix + t + p.suffix| - 1] != '\n'
  {
    var s := p.prefix + t + p.suffix;
    var n := |s| - 1;
    if |p.suffix| > 0 {
      assert s[n] == p.suffix[|p.suffix| - 1];
    } else if |t| > 0 {
      assert s[n] == t[|t| - 1];
    } else {
      assert s[n] == p.prefix[|p.prefix| - 1];
    }
  }

  /** For patterns whose literal parts hold no newline, the capture is unique:
      Capture returns exactly the `t` that makes the pattern match. */
  lemma CaptureUnique(p: Template, cls: CaptureClass, s: string, t: string)
    requires NewlineFree(p.prefix) && NewlineFree(p.suffix)
    requires Matches(p, cls, s, t)
    ensures Capture(p, cls, s) == Some(t)
  {
    var body := p.prefix + t + p.suffix;
    if s == body {
      MatchExactIff(p, cls, s, t);
    } else {
      assert s == body + "\n";
      if MatchExact(p, cls, s).Some? {
        var t' := MatchExact(p, cls, s).value;
        MatchExactIff(p, cls, s, t');
        ExactMatchEndsWithoutNewline(p, cls, t');
        assert false;
      }
      assert s[..|s| - 1] == body;
      MatchExactIff(p, cls, body, t);
    }
  }

  /** Capture characterised both ways for newline-free patterns. */
  lemma CaptureIff(p: Template, cls: CaptureClass, s: string, t: string)
    requires NewlineFree(p.prefix) && NewlineFree(p.suffix)
    ensures Capture(p, cls, s) == Some(t) <==> Matches(p, cls, s, t)
  {
    if Matches(p, cls, s, t) {
      CaptureUnique(p, cls, s, t);
    }
  }

  lemma DefaultTableNewlineFree()
    ensures NewlineFree(DefaultTable.total.prefix) && NewlineFree(DefaultTable.total.suffix)
    ensures NewlineFree(DefaultTable.count.prefix) && NewlineFree(DefaultTable.count.suffix)
    ensures NewlineFree(DefaultTable.alias.prefix) && NewlineFree(DefaultTable.alias.suffix)
  {
  }

  /** The default `total` pattern matches exactly `processing total of <digits> items`
      (optionally followed by one final newline) and captures the digits. */
  lemma TotalPatternExact(s: string, d: string)
    ensures Capture(DefaultTable.total, Digits, s) == Some(d)
        <==> InClass(Digits, d) &&
             (s == TotalPrefix + d + TotalSuffix || s == TotalPrefix + d + TotalSuffix + "\n")
  {
    DefaultTableNewlineFree();
    CaptureIff(DefaultTable.total, Digits, s, d);
  }

  /** The default `count` pattern matches exactly the payloads that begin with
      `processed ` and hold no newline after it, except possibly one final newline. */
  lemma CountPatternExact(s: string)
    ensures Capture(DefaultTable.count, Line, s).Some?
        <==> CountPrefix <= s &&
             (NewlineFree(s[|CountPrefix|..]) ||
              (|s| > |CountPrefix| && s[|s| - 1] == '\n' && NewlineFree(s[|CountPrefix|..|s| - 1])))
  {
    var p := DefaultTable.count;
    var n := |CountPrefix|;
    DefaultTableNewlineFree();
    if Capture(p, Line, s).Some? {
      var t := Capture(p, Line, s).value;
      if s == CountPrefix + t + "" {
        assert s[n..] == t;
      } else {
        assert s == CountPrefix + t + "\n";
        assert s[n..|s| - 1] == t;
      }
    }
    if CountPrefix <= s {
      if NewlineFree(s[n..]) {
        assert s == CountPrefix + s[n..] + "";
        CaptureComplete(p, Line, s, s[n..]);
      } else if |s| > n && s[|s| - 1] == '\n' && NewlineFree(s[n..|s| - 1]) {
        assert s == CountPrefix + s[n..|s| - 1] + "" + "\n";
        CaptureComplete(p, Line, s, s[n..|s| - 1]);
      }
    }
  }

  /** The default `alias` pattern matches `worker is <rest>` and captures the
      rest, without the final newline that `$` lets through. */
  lemma AliasPatternExact(s: string, v: string)
    ensures Capture(DefaultTable.alias, Line, s) == Some(v)
        <==> NewlineFree(v) && (s == AliasPrefix + v || s == AliasPrefix + v + "\n")
  {
    DefaultTableNewlineFree();
    CaptureIff(DefaultTable.alias, Line, s, v);
    assert AliasPrefix + v + "" == AliasPrefix + v;
  }

  /** A string some pattern matches starts with that pattern's prefix. */
  lemma CaptureStartsWithPrefix(p: Template, cls: CaptureClass, s: string)
    requires Capture(p, cls, s).Some?
    ensures p.prefix <= s
  {
    var t := Capture(p, cls, s).value;
    assert s[..|p.prefix|] == (p.prefix + t + p.suffix)[..|p.prefix|];
  }

  /** No payload is matched by two of the default patterns: `processing ...`
      and `processed ...` differ at their eighth character, and `worker is ...`
      differs from both at the first. */
  lemma DefaultPatternsExclusive(s: string)
    ensures !(Capture(DefaultTable.total, Digits, s).Some? && Capture(DefaultTable.count, Line, s).Some?)
    ensures !(Capture(DefaultTable.total, Digits, s).Some? && Capture(DefaultTable.alias, Line, s).Some?)
    ensures !(Capture(DefaultTable.count, Line, s).Some? && Capture(DefaultTable.alias, Line, s).Some?)
  {
    if Capture(DefaultTable.total, Digits, s).Some? {
      CaptureStartsWithPrefix(DefaultTable.total, Digits, s);
      assert s[7] == 'i' && s[0] == 'p';
    }
    if Capture(DefaultTable.count, Line, s).Some? {
      CaptureStartsWithPrefix(DefaultTable.count, Line, s);
      assert s[7] == 'e' && s[0] == 'p';
    }
    if Capture(DefaultTable.alias, Line, s).Some? {
      CaptureStartsWithPrefix(DefaultTable.alias, Line, s);
      assert s[0] == 'w';
    }
  }

  // Decimal numbers: the `total` capture is read as a non-negative integer.

  function DigitValue(c: char): (v: nat)
  {
    if IsDigit(c) then (c as int) - ('0' as int) else 0
  }

  function DigitChar(n: nat): (c: char)
    requires n < 10
    ensures IsDigit(c) && DigitValue(c) == n
  {
    (('0' as int) + n) as char
  }

  /** The integer a string of decimal digits denotes (leading zeros allowed). */
  function DecimalValue(d: string): (v: nat)
  {
    if |d| == 0 then 0 else 10 * DecimalValue(d[..|d| - 1]) + DigitValue(d[|d| - 1])
  }

  /** The decimal rendering of `n`, as a Python f-string writes it. */
  function DecimalString(n: nat): (r: string)
    ensures InClass(Digits, r)
    ensures |r| == 1 || r[0] != '0'
  {
    if n < 10 then [DigitChar(n)] else DecimalString(n / 10) + [DigitChar(n % 10)]
  }

  lemma {:induction false} DecimalRoundTrip(n: nat)
    ensures DecimalValue(DecimalString(n)) == n
  {
    if n >= 10 {
      var d := DecimalString(n);
      assert d[..|d| - 1] == DecimalString(n / 10);
      DecimalRoundTrip(n / 10);
    }
  }

  /** The status line a worker sends to announce how many items it will process. */
  function TotalMessage(n: nat): (m: string)
  {
    TotalPrefix + DecimalString(n) + TotalSuffix
  }

  /** The default `total` pattern recovers exactly the announced number. */
  lemma TotalMessageRoundTrip(n: nat)
    ensures Capture(DefaultTable.total, Digits, TotalMessage(n)) == Some(DecimalString(n))
    ensures DecimalValue(Capture(DefaultTable.total, Digits, TotalMessage(n)).value) == n
  {
    TotalPatternExact(TotalMessage(n), DecimalString(n));
    DecimalRoundTrip(n);
  }
}

=== FILE: pypbars.dfy ===
/** ProgressBars: a multi-line terminal display with one progress bar per
    entry of a caller-supplied `lookup` list, which routes every status message
    to the bar the message names.

    The parent class (a list of terminal lines) is not part of this model: its
    `get_index_message` is given the meaning of module Router, and its
    `print_line(i)` is recorded as the row `i` appended to `repainted`.
    `logger.debug(item)` is recorded as `item` appended to `logged`.
 */
module PyPBars {
  import opened Patterns
  import opened Bar
  import Router

  datatype ValueError = DataNotSupported | SizeNotSupported | LookupRequired {
    function Message(): (m: string) {
      match this
      case DataNotSupported => "specifying data is not supported"
      case SizeNotSupported => "specifying size is not supported"
      case LookupRequired => "a lookup attribute is required"
    }
  }

  datatype Result<+T> = Ok(value: T) | Err(error: ValueError)

  /** The keyword arguments the constructor inspects. `None` is an argument
      that was not passed or was passed as Python's None. */
  datatype Kwargs = Kwargs(data: Option<seq<string>>, size: Option<int>, lookup: Option<seq<string>>)

  /** `kwargs.get('data')` is truthy: a non-empty list was passed. */
  predicate DataGiven(kw: Kwargs) {
    kw.data.Some? && |kw.data.value| > 0
  }

  /** `kwargs.get('size')` is truthy: a non-zero number was passed (negative ones too). */
  predicate SizeGiven(kw: Kwargs) {
    kw.size.Some? && kw.size.value != 0
  }

  /** The nested `validate`: the error the first failing check raises, or None. */
  function Validate(kw: Kwargs): (r: Option<ValueError>)
    ensures r.None? <==> !DataGiven(kw) && !SizeGiven(kw) && kw.lookup.Some?
    ensures DataGiven(kw) ==> r == Some(DataNotSupported)
    ensures r == Some(SizeNotSupported) <==> !DataGiven(kw) && SizeGiven(kw)
    ensures r == Some(LookupRequired) <==> !DataGiven(kw) && !SizeGiven(kw) && kw.lookup.None?
  {
    if DataGiven(kw) then Some(DataNotSupported)
    else if SizeGiven(kw) then Some(SizeNotSupported)
    else if kw.lookup.None? then Some(LookupRequired)
    else None
  }

  /** An empty `lookup` list is not rejected, and neither are a falsy `data`
      (an empty list) or a falsy `size` (zero): only None is refused. */
  lemma EmptyLookupAccepted(data: Option<seq<string>>, size: Option<int>)
    requires data.None? || data == Some([])
    requires size.None? || size == Some(0)
    ensures Validate(Kwargs(data, size, Some([]))) == None
  {
  }

  /** The table every bar is built with: the caller's, or the class default
      when none (or a falsy one) is given. */
  function ChosenTable(regex: Option<PatternTable>): (t: PatternTable)
  {
    if regex.None? then DefaultTable else regex.value
  }

  /** The observable state of the display: every bar's state, the rows
      repainted so far, and the items logged so far. */
  datatype Display = Display(states: seq<BarState>, repainted: seq<nat>, logged: seq<string>)

  /** What a display is configured with at construction. */
  datatype Config = Config(lookup: seq<string>, table: PatternTable, logWrite: bool)

  /** The rows `write` repaints for an item routed to `index`: one when the
      bar matched the payload, and one more when the bar is complete. */
  function Repaints(index: nat, matched: bool, complete: bool): (rows: seq<nat>)
  {
    (if matched then [index] else []) + (if complete then [index] else [])
  }

  /** The effect of `write(item)` on the display. */
  function WriteEffect(c: Config, d: Display, item: string): (r: Display)
    requires |d.states| == |c.lookup|
    ensures |r.states| == |c.lookup|
  {
    var logged := d.logged + (if c.logWrite then [item] else []);
    match Router.IndexMessage(c.lookup, item)
    case None => d.(logged := logged)
    case Some(t) =>
      var (next, matched) := Step(c.table, d.states[t.index], t.message);
      Display(d.states[t.index := next], d.repainted + Repaints(t.index, matched, next.complete), logged)
  }

  /** WriteEffect for an item that is routed: the display `r` that has bar
      `t.index` stepped, its row repainted by the rule and the item logged. */
  lemma WriteEffectRouted(c: Config, d: Display, r: Display, item: string, t: Router.Target, next: BarState, matched: bool)
    requires |d.states| == |c.lookup|
    requires Router.IndexMessage(c.lookup, item) == Some(t)
    requires Step(c.table, d.states[t.index], t.message) == (next, matched)
    requires r.states == d.states[t.index := next]
    requires r.repainted == d.repainted + Repaints(t.index, matched, next.complete)
    requires r.logged == d.logged + (if c.logWrite then [item] else [])
    ensures WriteEffect(c, d, item) == r
  {
  }

  /** WriteEffect for an item that is routed nowhere: only the log changes. */
  lemma WriteEffectUnrouted(c: Config, d: Display, r: Display, item: string)
    requires |d.states| == |c.lookup|
    requires Router.IndexMessage(c.lookup, item).None?
    requires r.states == d.states && r.repainted == d.repainted
    requires r.logged == d.logged + (if c.logWrite then [item] else [])
    ensures WriteEffect(c, d, item) == r
  {
  }

  /** `item` is routed to bar `j`. */
  predicate RoutesTo(c: Config, item: string, j: nat)
  {
    Router.IndexMessage(c.lookup, item).Some? && Router.IndexMessage(c.lookup, item).value.index == j
  }

  /** One write changes at most the bar its item is routed to, repaints only
      that bar's row, zero, one or two times, and logs the item iff logging is on.
      An item routed nowhere changes no bar and repaints nothing. */
  lemma WriteTouchesOnlyTarget(c: Config, d: Display, item: string)
    requires |d.states| == |c.lookup|
    ensures var r := WriteEffect(c, d, item);
      r.logged == d.logged + (if c.logWrite then [item] else []) &&
      d.repainted <= r.repainted && |r.repainted| <= |d.repainted| + 2 &&
      (forall j :: 0 <= j < |d.states| && !RoutesTo(c, item, j) ==> r.states[j] == d.states[j]) &&
      (forall k :: |d.repainted| <= k < |r.repainted| ==> RoutesTo(c, item, r.repainted[k]))
  {
  }

  /** A bar that is complete has its row repainted on every write routed to it,
      whether or not the payload matched: completion is never reverted and the
      completeness check runs on every routed write. */
  lemma CompleteBarRepaintedOnEveryWrite(c: Config, d: Display, item: string)
    requires |d.states| == |c.lookup|
    requires Router.IndexMessage(c.lookup, item).Some?
    requires d.states[Router.IndexMessage(c.lookup, item).value.index].complete
    ensures var r := WriteEffect(c, d, item);
      |r.repainted| > |d.repainted| &&
      r.repainted[|r.repainted| - 1] == Router.IndexMessage(c.lookup, item).value.index &&
      r.states[Router.IndexMessage(c.lookup, item).value.index].complete
  {
    var t := Router.IndexMessage(c.lookup, item).value;
    StepProperties(c.table, d.states[t.index], t.message);
  }

  /** The effect of writing `items` one after the other. */
  function WriteAll(c: Config, d: Display, items: seq<string>): (r: Display)
    requires |d.states| == |c.lookup|
    ensures |r.states| == |c.lookup|
    decreases |items|
  {
    if items == [] then d else WriteAll(c, WriteEffect(c, d, items[0]), items[1..])
  }

  /** A bar that no message of a run is routed to keeps its state, and its
      row is not repainted during the run; with logging on, the run's items are
      logged in order. */
  lemma {:induction false} WriteAllIsolation(c: Config, d: Display, items: seq<string>, j: nat)
    requires |d.states| == |c.lookup| && j < |c.lookup|
    requires forall k :: 0 <= k < |items| ==> !RoutesTo(c, items[k], j)
    ensures var r := WriteAll(c, d, items);
      r.states[j] == d.states[j] &&
      d.repainted <= r.repainted &&
      (forall k :: |d.repainted| <= k < |r.repainted| ==> r.repainted[k] != j) &&
      r.logged == d.logged + (if c.logWrite then items else [])
    decreases |items|
  {
    if items != [] {
      var d1 := WriteEffect(c, d, items[0]);
      WriteTouchesOnlyTarget(c, d, items[0]);
      assert !RoutesTo(c, items[0], j);
      WriteAllIsolation(c, d1, items[1..], j);
      assert WriteAll(c, d, items) == WriteAll(c, d1, items[1..]);
      if c.logWrite {
        assert items == [items[0]] + items[1..];
      }
    }
  }

  /** A message `<id>-><payload>` whose identity is not in `lookup` is dropped:
      no bar changes and no row is repainted; only the log records it. */
  lemma UnknownIdentityDropped(c: Config, d: Display, id: string, m: string)
    requires |d.states| == |c.lookup|
    requires Router.NoArrow(id) && id !in c.lookup
    ensures WriteEffect(c, d, id + "->" + m)
         == d.(logged := d.logged + (if c.logWrite then [id + "->" + m] else []))
  {
    Router.RouteUnknownIdentity(c.lookup, id, m);
  }

  /** A message `<id>-><payload>` for a known identity updates the first bar
      with that identity as its `match` does, and nothing else. */
  lemma KnownIdentityWrite(c: Config, d: Display, id: string, m: string, i: nat)
    requires |d.states| == |c.lookup|
    requires Router.NoArrow(id) && i < |c.lookup| && c.lookup[i] == id
    requires forall j :: 0 <= j < i ==> c.lookup[j] != id
    ensures var (next, matched) := Step(c.table, d.states[i], m);
      WriteEffect(c, d, id + "->" + m)
        == Display(d.states[i := next], d.repainted + Repaints(i, matched, next.complete),
                   d.logged + (if c.logWrite then [id + "->" + m] else []))
  {
    Router.RouteKnownIdentity(c.lookup, id, m);
  }

  /** `id` sits at position `i` of `lookup` and nowhere before it, and holds no delimiter. */
  predicate FirstEntry(c: Config, id: string, i: nat)
  {
    Router.NoArrow(id) && i < |c.lookup| && c.lookup[i] == id &&
    forall j :: 0 <= j < i ==> c.lookup[j] != id
  }

  /** With the default table, `<id>->worker is <v>` sets the alias of bar `i`
      and repaints its row once (twice if the bar was already complete). */
  lemma AliasWrite(c: Config, d: Display, id: string, i: nat, v: string)
    requires |d.states| == |c.lookup| && c.table == DefaultTable
    requires FirstEntry(c, id, i) && NewlineFree(v)
    ensures WriteEffect(c, d, id + "->" + AliasPrefix + v)
         == Display(d.states[i := d.states[i].(alias := Some(v))],
                    d.repainted + Repaints(i, true, d.states[i].complete),
                    d.logged + (if c.logWrite then [id + "->" + AliasPrefix + v] else []))
  {
    assert id + "->" + AliasPrefix + v == id + "->" + (AliasPrefix + v);
    KnownIdentityWrite(c, d, id, AliasPrefix + v, i);
    DefaultAliasStep(d.states[i], v);
  }

  /** With the default table, `<id>->processing total of <n> items` sets the
      total of bar `i` and repaints its row once (twice if already complete). */
  lemma TotalWrite(c: Config, d: Display, id: string, i: nat, n: nat)
    requires |d.states| == |c.lookup| && c.table == DefaultTable
    requires FirstEntry(c, id, i)
    ensures WriteEffect(c, d, id + "->" + TotalMessage(n))
         == Display(d.states[i := d.states[i].(total := Some(n))],
                    d.repainted + Repaints(i, true, d.states[i].complete),
                    d.logged + (if c.logWrite then [id + "->" + TotalMessage(n)] else []))
  {
    KnownIdentityWrite(c, d, id, TotalMessage(n), i);
    DefaultTotalStep(d.states[i], n);
  }

  /** With the default table, `<id>->processed <rest>` counts one item on bar
      `i` and repaints its row once, and once more when the bar is then complete. */
  lemma CountWrite(c: Config, d: Display, id: string, i: nat, rest: string)
    requires |d.states| == |c.lookup| && c.table == DefaultTable
    requires FirstEntry(c, id, i) && NewlineFree(rest)
    ensures var st := d.states[i];
      var next := st.(count := st.count + 1,
                      complete := st.complete || (st.total.Some? && st.count + 1 >= st.total.value));
      WriteEffect(c, d, id + "->" + CountPrefix + rest)
         == Display(d.states[i := next], d.repainted + Repaints(i, true, next.complete),
                    d.logged + (if c.logWrite then [id + "->" + CountPrefix + rest] else []))
  {
    assert id + "->" + CountPrefix + rest == id + "->" + (CountPrefix + rest);
    KnownIdentityWrite(c, d, id, CountPrefix + rest, i);
    assert CountPrefix + rest == CountPrefix + rest + "";
    CaptureComplete(DefaultTable.count, Line, CountPrefix + rest, rest);
    DefaultCountStep(d.states[i], CountPrefix + rest);
  }

  /** A run of writes goes through the displays `ds` when each item takes the
      display before it to the one after it: then the run ends in the last one. */
  lemma {:induction false} WriteAllFollowsTrace(c: Config, ds: seq<Display>, items: seq<string>)
    requires |ds| == |items| + 1
    requires forall k :: 0 <= k < |ds| ==> |ds[k].states| == |c.lookup|
    requires forall k :: 0 <= k < |items| ==> WriteEffect(c, ds[k], items[k]) == ds[k + 1]
    ensures WriteAll(c, ds[0], items) == ds[|items|]
    decreases |items|
  {
    if items != [] {
      assert WriteEffect(c, ds[0], items[0]) == ds[1];
      WriteAllFollowsTrace(c, ds[1..], items[1..]);
    }
  }

  /** The display after the first `k` messages of a worker's life (see WorkerLifecycle). */
  function LifecycleDisplay(c: Config, i: nat, name: string, items: seq<string>, k: nat): (d: Display)
    requires i < |c.lookup| && k <= 5 && |items| == 5
    ensures |d.states| == |c.lookup|
  {
    var st := match k
      case 0 => Initial
      case 1 => BarState(Some(name), None, 0, false)
      case 2 => BarState(Some(name), Some(3), 0, false)
      case 3 => BarState(Some(name), Some(3), 1, false)
      case 4 => BarState(Some(name), Some(3), 2, false)
      case _ => BarState(Some(name), Some(3), 3, true);
    Display(InitialDisplay(c.lookup).states[i := st],
            [i, i, i, i, i, i][..if k == 5 then 6 else k],
            if c.logWrite then items[..k] else [])
  }

  /** The items a worker sends in the examples: its name, a total of three
      items, then one report per item. */
  predicate LifecycleItems(id: string, name: string, items: seq<string>)
  {
    items == [id + "->" + AliasPrefix + name, id + "->" + TotalMessage(3),
              id + "->" + CountPrefix + "0", id + "->" + CountPrefix + "1",
              id + "->" + CountPrefix + "2"]
  }

  /** AliasWrite, for a display `d'` given by its parts. */
  lemma AliasWriteTo(c: Config, d: Display, d': Display, id: string, i: nat, v: string)
    requires |d.states| == |c.lookup| && c.table == DefaultTable
    requires FirstEntry(c, id, i) && NewlineFree(v)
    requires d'.states == d.states[i := d.states[i].(alias := Some(v))]
    requires d'.repainted == d.repainted + Repaints(i, true, d.states[i].complete)
    requires d'.logged == d.logged + (if c.logWrite then [id + "->" + AliasPrefix + v] else [])
    ensures WriteEffect(c, d, id + "->" + AliasPrefix + v) == d'
  {
    AliasWrite(c, d, id, i, v);
  }

  /** TotalWrite, for a display `d'` given by its parts. */
  lemma TotalWriteTo(c: Config, d: Display, d': Display, id: string, i: nat, n: nat)
    requires |d.states| == |c.lookup| && c.table == DefaultTable
    requires FirstEntry(c, id, i)
    requires d'.states == d.states[i := d.states[i].(total := Some(n))]
    requires d'.repainted == d.repainted + Repaints(i, true, d.states[i].complete)
    requires d'.logged == d.logged + (if c.logWrite then [id + "->" + TotalMessage(n)] else [])
    ensures WriteEffect(c, d, id + "->" + TotalMessage(n)) == d'
  {
    TotalWrite(c, d, id, i, n);
  }

  /** First message of the lifecycle: the worker names itself. */
  lemma LifecycleNamed(c: Config, id: string, i: nat, name: string, items: seq<string>)
    requires c.table == DefaultTable && FirstEntry(c, id, i) && NewlineFree(name)
    requires LifecycleItems(id, name, items)
    ensures WriteEffect(c, LifecycleDisplay(c, i, name, items, 0), items[0])
         == LifecycleDisplay(c, i, name, items, 1)
  {
    var d := LifecycleDisplay(c, i, name, items, 0);
    var d' := LifecycleDisplay(c, i, name, items, 1);
    assert d.states[i := d.states[i].(alias := Some(name))] == d'.states;
    assert d'.repainted == d.repainted + [i];
    assert d'.logged == d.logged + (if c.logWrite then [items[0]] else []);
    AliasWriteTo(c, d, d', id, i, name);
  }

  /** Second message of the lifecycle: the worker announces three items. */
  lemma LifecycleTotal(c: Config, id: string, i: nat, name: string, items: seq<string>)
    requires c.table == DefaultTable && FirstEntry(c, id, i) && NewlineFree(name)
    requires LifecycleItems(id, name, items)
    ensures WriteEffect(c, LifecycleDisplay(c, i, name, items, 1), items[1])
         == LifecycleDisplay(c, i, name, items, 2)
  {
    var d := LifecycleDisplay(c, i, name, items, 1);
    var d' := LifecycleDisplay(c, i, name, items, 2);
    assert d.states[i := d.states[i].(total := Some(3))] == d'.states;
    assert d'.repainted == d.repainted + [i];
    assert c.logWrite ==> items[..1] + [items[1]] == items[..2];
    assert d'.logged == d.logged + (if c.logWrite then [items[1]] else []);
    TotalWriteTo(c, d, d', id, i, 3);
  }

  /** With the default table, a count report for a bar that knows its total of
      three and has counted `m` < 3 items leads to the display `d'` that has
      counted one more and repainted the bar's row, twice when that completes
      the bar. */
  lemma CountToward3(c: Config, d: Display, d': Display, id: string, i: nat, name: string, rest: string, m: nat)
    requires |d.states| == |c.lookup| && c.table == DefaultTable
    requires FirstEntry(c, id, i) && NewlineFree(rest) && m < 3
    requires d.states[i] == BarState(Some(name), Some(3), m, false)
    requires d'.states == d.states[i := BarState(Some(name), Some(3), m + 1, m + 1 == 3)]
    requires d'.repainted == d.repainted + (if m + 1 == 3 then [i, i] else [i])
    requires d'.logged == d.logged + (if c.logWrite then [id + "->" + CountPrefix + rest] else [])
    ensures WriteEffect(c, d, id + "->" + CountPrefix + rest) == d'
  {
    CountWrite(c, d, id, i, rest);
  }

  /** Messages three to five of the lifecycle: one report per item. */
  lemma LifecycleCount(c: Config, id: string, i: nat, name: string, items: seq<string>, k: nat)
    requires c.table == DefaultTable && FirstEntry(c, id, i) && NewlineFree(name)
    requires LifecycleItems(id, name, items) && 2 <= k < 5
    ensures WriteEffect(c, LifecycleDisplay(c, i, name, items, k), items[k])
         == LifecycleDisplay(c, i, name, items, k + 1)
  {
    var d := LifecycleDisplay(c, i, name, items, k);
    var d' := LifecycleDisplay(c, i, name, items, k + 1);
    var rest := if k == 2 then "0" else if k == 3 then "1" else "2";
    assert items[k] == id + "->" + CountPrefix + rest;
    assert d.states[i := BarState(Some(name), Some(3), k - 1, k == 4)] == d'.states;
    assert d'.repainted == d.repainted + (if k == 4 then [i, i] else [i]);
    assert c.logWrite ==> items[..k] + [items[k]] == items[..k + 1];
    assert d'.logged == d.logged + (if c.logWrite then [items[k]] else []);
    CountToward3(c, d, d', id, i, name, rest, k - 2);
  }

  /** One worker's life as the examples drive it: it names itself, announces
      three items and reports each of them. On a fresh display, the worker's bar
      ends with the alias, total 3, count 3 and complete; every other bar is
      untouched; the worker's row is repainted once per message and once more
      on completion. */
  lemma WorkerLifecycle(c: Config, id: string, i: nat, name: string, items: seq<string>)
    requires c.table == DefaultTable && FirstEntry(c, id, i) && NewlineFree(name)
    requires LifecycleItems(id, name, items)
    ensures var r := WriteAll(c, InitialDisplay(c.lookup), items);
      r.states == InitialDisplay(c.lookup).states[i := BarState(Some(name), Some(3), 3, true)] &&
      r.repainted == [i, i, i, i, i, i] &&
      r.logged == (if c.logWrite then items else [])
  {
    var ds := seq(6, k requires 0 <= k < 6 => LifecycleDisplay(c, i, name, items, k));
    forall k | 0 <= k < 5
      ensures WriteEffect(c, ds[k], items[k]) == ds[k + 1]
    {
      if k == 0 {
        LifecycleNamed(c, id, i, name, items);
      } else if k == 1 {
        LifecycleTotal(c, id, i, name, items);
      } else {
        LifecycleCount(c, id, i, name, items, k);
      }
    }
    WriteAllFollowsTrace(c, ds, items);
    assert ds[0] == InitialDisplay(c.lookup);
    assert ds[5].repainted == [i, i, i, i, i, i];
  }

  /** A newly constructed display over `lookup`. */
  function InitialDisplay(lookup: seq<string>): (d: Display)
    ensures |d.states| == |lookup|
  {
    Display(seq(|lookup|, _ => Initial), [], [])
  }

  class ProgressBars {
    const lookup: seq<string>
    const size: nat
    /** The `data` list handed to the parent class: one bar per lookup entry. */
    const bars: seq<ProgressBar>
    /** The pattern table all bars were built with. */
    ghost const table: PatternTable
    const logWrite: bool
    /** Rows passed to `print_line`, oldest first. */
    var repainted: seq<nat>
    /** Items passed to `logger.debug` by `write`, oldest first. */
    var logged: seq<string>

    ghost predicate Valid()
    {
      size == |lookup| == |bars| &&
      (forall i, j :: 0 <= i < j < |bars| ==> bars[i] != bars[j]) &&
      (forall i :: 0 <= i < |bars| ==> bars[i].regex == table && bars[i].control)
    }

    ghost function Configuration(): (c: Config)
    {
      Config(lookup, table, logWrite)
    }

    ghost function States(): (s: seq<BarState>)
      reads bars
      ensures |s| == |bars| && forall i :: 0 <= i < |bars| ==> s[i] == bars[i].State()
    {
      seq(|bars|, i reads bars requires 0 <= i < |bars| => bars[i].State())
    }

    ghost function Snapshot(): (d: Display)
      reads this, bars
    {
      Display(States(), repainted, logged)
    }

    /** Everything `__init__` does once `validate` has passed: `size` is the
        length of `lookup` and the `data` list is built with one fresh bar per
        entry, every bar sharing `regex` and `fill`. (The unit test at
        src/unittest/python/test_pypbars.py:36 expects `use_color` to be passed
        to each bar; the constructor passes `fill`, and so does this model.) */
    constructor (lookup: seq<string>, regex: PatternTable, fill: Option<string>, logWrite: bool)
      ensures Valid()
      ensures this.lookup == lookup && size == |lookup| && table == regex && this.logWrite == logWrite
      ensures forall i :: 0 <= i < |bars| ==> fresh(bars[i]) && bars[i].fill == fill
      ensures Snapshot() == InitialDisplay(lookup)
    {
      var data: seq<ProgressBar> := [];
      var k := 0;
      while k < |lookup|
        invariant k == |data| <= |lookup|
        invariant forall i :: 0 <= i < k ==> fresh(data[i])
        invariant forall i, j :: 0 <= i < j < k ==> data[i] != data[j]
        invariant forall i :: 0 <= i < k ==>
          data[i].regex == regex && data[i].fill == fill && data[i].control && data[i].State() == Initial
      {
        var bar := new ProgressBar(regex, fill, true);
        data := data + [bar];
        k := k + 1;
      }
      this.lookup := lookup;
      size := |lookup|;
      bars := data;
      table := regex;
      this.logWrite := logWrite;
      repainted := [];
      logged := [];
      new;
      assert States() == InitialDisplay(lookup).states;
    }

    /** `print_line(index)`: repaint one row. */
    method PrintLine(index: nat)
      modifies this`repainted
      ensures repainted == old(repainted) + [index]
    {
      repainted := repainted + [index];
    }

    /** `write(item)`: route the item; if it names a bar, let only that bar
        match the payload, repaint its row when it matched and once more when
        it is complete; then log the item when logging is on.
        (The unit test at src/unittest/python/test_pypbars.py:85-92 expects no
        repaint when a cached rendering of the row is unchanged; `write` has no
        such cache and repaints on every successful match, as modelled here.) */
    method Write(item: string)
      requires Valid()
      modifies this`repainted, this`logged, bars
      ensures Valid()
      ensures Snapshot() == WriteEffect(Configuration(), old(Snapshot()), item)
    {
      ghost var before := Snapshot();
      var target := Router.IndexMessage(lookup, item);
      ghost var next, hit := Initial, false;
      if target.Some? {
        var index, message := target.value.index, target.value.message;
        var matched := bars[index].Match(message);
        next, hit := bars[index].State(), matched;
        if matched {
          PrintLine(index);
        }
        if bars[index].complete {
          PrintLine(index);
        }
        assert repainted == before.repainted + Repaints(index, matched, next.complete);
        forall j | 0 <= j < |bars|
          ensures bars[j].State() == before.states[index := next][j]
        {
          if j != index {
            assert bars[j] != bars[index];
          }
        }
        assert States() == before.states[index := next];
      }
      if logWrite {
        logged := logged + [item];
      }
      if target.Some? {
        WriteEffectRouted(Configuration(), before, Snapshot(), item, target.value, next, hit);
      } else {
        WriteEffectUnrouted(Configuration(), before, Snapshot(), item);
      }
    }
  }

  /** `ProgressBars(regex=None, fill=None, log_write=True, **kwargs)`: validation
      first, then construction with the resolved pattern table. The defaults
      are those of the constructor's signature. */
  method Create(kw: Kwargs, regex: Option<PatternTable> := None, fill: Option<string> := None, logWrite: bool := true)
    returns (r: Result<ProgressBars>)
    ensures r.Err? <==> Validate(kw).Some?
    ensures r.Err? ==> r.error == Validate(kw).value
    ensures r.Ok? ==> fresh(r.value) && r.value.Valid()
    ensures r.Ok? ==> r.value.lookup == kw.lookup.value && r.value.size == |kw.lookup.value|
    ensures r.Ok? ==> r.value.table == ChosenTable(regex) && r.value.logWrite == logWrite
    ensures r.Ok? ==> forall i :: 0 <= i < |r.value.bars| ==> fresh(r.value.bars[i]) && r.value.bars[i].fill == fill
    ensures r.Ok? ==> r.value.Snapshot() == InitialDisplay(kw.lookup.value)
  {
    var error := Validate(kw);
    if error.Some? {
      return Err(error.value);
    }
    var bars := new ProgressBars(kw.lookup.value, ChosenTable(regex), fill, logWrite);
    r := Ok(bars);
  }

  /** `ProgressBars(lookup=lookup)`, the call every user makes: it cannot fail,
      and the display uses the default table, no fill, and logs every item. */
  method CreateWithLookup(lookup: seq<string>) returns (r: Result<ProgressBars>)
    ensures r.Ok? && fresh(r.value) && r.value.Valid()
    ensures r.value.lookup == lookup && r.value.size == |lookup|
    ensures r.value.table == DefaultTable && r.value.logWrite
    ensures forall i :: 0 <= i < |r.value.bars| ==> fresh(r.value.bars[i]) && r.value.bars[i].fill.None?
    ensures r.value.Snapshot() == InitialDisplay(lookup)
  {
    r := Create(Kwargs(None, None, Some(lookup)));
  }

  /** The consumer of a run: a display built with `ProgressBars(lookup=lookup)`
      receives every queued item through `write`, in queue order. The display
      ends exactly as the run of writes `WriteAll` prescribes. */
  method Consume(lookup: seq<string>, items: seq<string>) returns (pbars: ProgressBars)
    ensures fresh(pbars) && pbars.Valid()
    ensures pbars.Snapshot() == WriteAll(Config(lookup, DefaultTable, true), InitialDisplay(lookup), items)
  {
    var created := CreateWithLookup(lookup);
    pbars := created.value;
    ghost var c := pbars.Configuration();
    ghost var run := WriteAll(c, pbars.Snapshot(), items);
    var k := 0;
    while k < |items|
      invariant 0 <= k <= |items|
      invariant fresh(pbars) && pbars.Valid() && pbars.Configuration() == c
      invariant forall i :: 0 <= i < |pbars.bars| ==> fresh(pbars.bars[i])
      invariant |pbars.Snapshot().states| == |c.lookup|
      invariant WriteAll(c, pbars.Snapshot(), items[k..]) == run
    {
      assert items[k..][1..] == items[k + 1..];
      pbars.Write(items[k]);
      k := k + 1;
    }
  }
}

=== FILE: router.dfy ===
/** Resolving a status message to a bar index and a payload.

    ProgressBars inherits `get_index_message` from its parent class, whose code
    is not part of this model. This module gives it the meaning of the message
    convention the callers use, `<identity>-><payload>`: the text before the
    first `->` names an entry of `lookup`, and the bar at that entry's (first)
    position receives the text after the delimiter.
 */
module Router {
  import opened Patterns

  /** A resolved message: the bar index and the payload meant for that bar. */
  datatype Target = Target(index: nat, message: string)

  predicate ArrowAt(s: string, i: int) {
    0 <= i && i + 1 < |s| && s[i] == '-' && s[i + 1] == '>'
  }

  predicate NoArrow(s: string) {
    forall j :: 0 <= j < |s| ==> !ArrowAt(s, j)
  }

  /** The first position at or after `from` where the delimiter `->` starts. */
  function FindArrow(s: string, from: nat): (r: Option<nat>)
    requires from <= |s|
    ensures r.Some? ==> from <= r.value && ArrowAt(s, r.value)
    ensures r.Some? ==> forall j :: from <= j < r.value ==> !ArrowAt(s, j)
    ensures r.None? ==> forall j :: from <= j < |s| ==> !ArrowAt(s, j)
    decreases |s| - from
  {
    if from + 1 >= |s| then None
    else if ArrowAt(s, from) then Some(from)
    else FindArrow(s, from + 1)
  }

  /** The first position at or after `from` of `id` in `lookup`, as Python's `list.index`. */
  function IndexOf(lookup: seq<string>, id: string, from: nat): (r: Option<nat>)
    requires from <= |lookup|
    ensures r.Some? ==> from <= r.value < |lookup| && lookup[r.value] == id
    ensures r.Some? ==> forall j :: from <= j < r.value ==> lookup[j] != id
    ensures r.None? ==> forall j :: from <= j < |lookup| ==> lookup[j] != id
    decreases |lookup| - from
  {
    if from == |lookup| then None
    else if lookup[from] == id then Some(from)
    else IndexOf(lookup, id, from + 1)
  }

  /** `get_index_message`: the index and payload an item is routed to, or None. */
  function IndexMessage(lookup: seq<string>, item: string): (r: Option<Target>)
    ensures r.Some? ==> r.value.index < |lookup|
  {
    match FindArrow(item, 0)
    case None => None
    case Some(p) =>
      match IndexOf(lookup, item[..p], 0)
      case None => None
      case Some(i) => Some(Target(i, item[p + 2..]))
  }

  /** A routed item is exactly `<lookup entry>-><payload>`, with no delimiter in the entry. */
  lemma RouteSound(lookup: seq<string>, item: string)
    requires IndexMessage(lookup, item).Some?
    ensures var t := IndexMessage(lookup, item).value;
      item == lookup[t.index] + "->" + t.message && NoArrow(lookup[t.index])
  {
    var p := FindArrow(item, 0).value;
    var t := IndexMessage(lookup, item).value;
    assert item == item[..p] + "->" + item[p + 2..];
    forall j | 0 <= j < |lookup[t.index]|
      ensures !ArrowAt(lookup[t.index], j)
    {
      if ArrowAt(item[..p], j) {
        assert ArrowAt(item, j);
      }
    }
  }

  /** The first `->` of `id -> m` is the one after `id`, when `id` holds none. */
  lemma FirstArrowAfterIdentity(id: string, m: string)
    requires NoArrow(id)
    ensures FindArrow(id + "->" + m, 0) == Some(|id|)
  {
    var s := id + "->" + m;
    assert ArrowAt(s, |id|);
    forall j | 0 <= j < |id|
      ensures !ArrowAt(s, j)
    {
      if j + 1 < |id| {
        assert !ArrowAt(id, j);
      } else {
        assert s[j + 1] == '-';
      }
    }
  }

  /** A message `<id>-><m>` for an identity in `lookup` reaches the first bar
      with that identity, carrying exactly `m` (which may itself contain `->`). */
  lemma RouteKnownIdentity(lookup: seq<string>, id: string, m: string)
    requires NoArrow(id) && id in lookup
    ensures var r := IndexMessage(lookup, id + "->" + m);
      r.Some? && lookup[r.value.index] == id && r.value.message == m &&
      forall j :: 0 <= j < r.value.index ==> lookup[j] != id
  {
    var s := id + "->" + m;
    FirstArrowAfterIdentity(id, m);
    assert s[..|id|] == id;
    assert s[|id| + 2..] == m;
  }

  /** A message whose identity is not in `lookup` is routed nowhere. */
  lemma RouteUnknownIdentity(lookup: seq<string>, id: string, m: string)
    requires NoArrow(id) && id !in lookup
    ensures IndexMessage(lookup, id + "->" + m).None?
  {
    var s := id + "->" + m;
    FirstArrowAfterIdentity(id, m);
    assert s[..|id|] == id;
  }

  /** A message without the delimiter is routed nowhere. */
  lemma RouteNoDelimiter(lookup: seq<string>, item: string)
    requires NoArrow(item)
    ensures IndexMessage(lookup, item).None?
  {
  }
}
